=== FILE: README.md ===
# Witch's Magical Memory: the matching rules and the effect lifecycle

This project models the core of a pygame memory game in Dafny. Twelve cards
(three rows of four) show six colours, each on two cards. The player turns
cards over two at a time. A pair stays face up until each of its two cards
has been face up for 1800 ms. Then it is either matched (250 points) or
turned back. Around this state machine sits a
lifecycle for short-lived visual effects: sparkles and confetti particles
lose 1.5 life per frame and are dropped once their life is no longer
positive.

Modules:

- `Basics`: `Option`, `Result`, `Min`, `Max`.
- `Palette`: RGB colours and the six named card colours.
- `Effects`: sparkles and particles, one tick of an effect, pruning a pool,
  and the top-up of the background pool.
- `Cards`: the card record (`Card`), the flip ramp, and one tick of
  `Card.update`.
- `Dealing`: `setup_cards`. It duplicates the selected colours, shuffles them
  and lays the cards out in row-major order. `SetupCards` is the
  nested-loop version and is proved equal to the functional `Deal`.
- `Session`: the game (`EnhancedDisneyWitchGame`). It covers clicks, timed
  resolution, restart, one frame of the main loop, event dispatch, the
  invariant of reachable games, and a scripted two-by-two game.

Modelling choices:

- A card's game state is two flags, `revealed` and `matched`, as in the
  source. A matched card stays revealed.
- Time is the millisecond clock, passed to every operation that reads it.
- The pointer hit test is the set `under` of card indices whose rectangle
  contains the click. Of those cards, the click reveals the first one in
  board order that has entered and is neither revealed nor matched.
- The entrance animation is the `entered` flag. `Card.update` sets it only
  when the clock is strictly past `entrance_delay` and the easing has
  settled. The `settled` input says whether it has.
- Every random draw is an input. This covers spawn positions, drifts, sizes
  and lives, the per-frame sparkle chance, and the shuffle.
  `random.shuffle` is Fisher–Yates: for i from n-1 down to 1 it swaps
  position i with a drawn j <= i. The model takes these draws as a sequence,
  one per swap, as CPython's `random.shuffle` makes them.
- Floats are Dafny `real`s (exact arithmetic). Python integers are unbounded,
  like Dafny's.

Facts about the program that the model keeps:

- The entrance compares `entrance_delay = index * 60` with
  `pygame.time.get_ticks()`, which counts from program start. So the cards
  of a restarted game enter at once.
- The program never checks that the two pending entries are different
  cards. `Session.Valid` proves that they always are.
- A restart clears the confetti particles and builds new cards, which drops
  the old cards' sparkles. The background sparkles are kept.

## Model

| member | source | states |
|---|---|---|
| Effects.Tick | enhanced_disney_witch_game.py:909 | pruning keeps exactly the ticked effects whose life is still positive: it never grows the pool, drops no live effect, keeps only ticked originals, and keeps every effect when none dies |
| Effects.TickAppend | enhanced_disney_witch_game.py:545 | the prune works element by element: ticking a concatenation is the concatenation of the ticked parts, so survivors keep their order |
| Effects.PoolExpires | enhanced_disney_witch_game.py:406-410 | with 1.5 life lost per tick, a pool whose every effect has at most 1.5·n life is empty after n ticks |
| Effects.FreshPoolExpires | enhanced_disney_witch_game.py:396-409 | sparkles start with at most 80 life and particles with 60, so a pool of fresh effects is gone within 54 ticks |
| Effects.EmptyPoolStaysEmpty | enhanced_disney_witch_game.py:909 | ticking an empty pool any number of times leaves it empty |
| Effects.Advance | enhanced_disney_witch_game.py:406-410 | one tick takes 1.5 life from a sparkle or a particle, keeps its kind, size and maximal life, and adds 0.08 gravity to a particle's vertical speed (particle update at lines 465-471) |
| Effects.NewSparkle | enhanced_disney_witch_game.py:392-397 | a new sparkle's maximal life is its drawn life, and a sparkle drawn from the constructor's ranges is alive |
| Effects.NewParticle | enhanced_disney_witch_game.py:453-460 | a new particle has the given colour and starts alive at its full life of 60 |
| Effects.TopUp | enhanced_disney_witch_game.py:898-906 | the survivors of the prune are kept in order; three sparkles, made from the first three draws, are appended exactly when fewer than 100 survive; the pool never exceeds the larger of its old size and 102; with in-range draws every sparkle in it is alive |
| Effects.BackgroundStaysBounded | enhanced_disney_witch_game.py:901-906 | over any number of frames, a background pool that starts with at most 102 sparkles never holds more than 102 |
| Cards.Flip | enhanced_disney_witch_game.py:548-551 | one flip step stays in [0, 1] and moves towards 1 while the card is shown and towards 0 otherwise |
| Cards.FlipIsRamp | enhanced_disney_witch_game.py:548-551 | n flip steps from a value in [0, 1] follow the clamped linear ramp f ± 0.18·n |
| Cards.FlipCompletes | enhanced_disney_witch_game.py:549-551 | six ticks complete a flip from any position, in either direction |
| Cards.Update | enhanced_disney_witch_game.py:518-551 | a card tick never changes the card's identity, colour or game flags; the entrance completes exactly when the clock is past the entrance delay and the easing has settled, and never reverts; the flip takes exactly one clamped step, so it stays in [0, 1]; the sparkles are the pruned tick of the old ones, followed by the pruned tick of the new sparkle when a matched card draws one; all kept sparkles are alive |
| Cards.UpdatesFollowRamp | enhanced_disney_witch_game.py:547-551 | over any run of card ticks the game flags stay fixed and the flip follows the clamped linear ramp from its start value |
| Cards.CardFlipCompletes | enhanced_disney_witch_game.py:547-551 | six ticks of a card finish its flip, up for a shown card and down for a hidden one, whatever the other inputs of those ticks |
| Cards.NewCard | enhanced_disney_witch_game.py:499-516 | a new card has the given colour and grid index, is hidden, unmatched and not entered, and enters 60 ms per index after the previous card |
| Dealing.Pairs | enhanced_disney_witch_game.py:775-777 | the unshuffled deck holds every selected colour twice in a row, so it holds exactly two copies of the selection |
| Dealing.Shuffle | enhanced_disney_witch_game.py:779 | the shuffle only permutes: same length, same multiset of cards |
| Dealing.DeckCoversGrid | enhanced_disney_witch_game.py:772-796 | the shuffled deck is never larger than the grid, and it fills the grid exactly when rows·cols is even and the palette has at least rows·cols/2 colours |
| Dealing.Deal | enhanced_disney_witch_game.py:770-799 | the deal fails (index out of range) exactly for an odd grid or too short a palette; otherwise card i is fresh, has index i, sits in row i / cols and column i % cols of the centred grid, enters after 60·i ms, and the board's colours are two copies of the selection |
| Dealing.CellIndex | enhanced_disney_witch_game.py:791-799 | index row·cols + col lies inside the grid, and division and remainder by cols give back row and col |
| Dealing.SetupCards | enhanced_disney_witch_game.py:789-799 | the nested row and column loops with a running index produce exactly the functional deal, including its failure |
| Palette.DistinctOnce | enhanced_disney_witch_game.py:23-30 | in a list of charms whose colours are pairwise different, every charm occurs exactly once |
| Dealing.StandardDeal | enhanced_disney_witch_game.py:16-30 | the real three-by-four board from the six palette colours always deals, has 12 cards, and shows every palette colour on exactly two cards |
| Session.Setup | enhanced_disney_witch_game.py:770-799 | the game's board has 2·total_pairs cards, fresh and indexed in order |
| Session.SetupPairs | enhanced_disney_witch_game.py:772-779 | every palette colour is on exactly two cards of the game's board |
| Session.NewGame | enhanced_disney_witch_game.py:751-768 | a new game is a valid, unwon game on the dealt board, with score, moves and pairs at zero, nothing pending, no confetti and the 100 background sparkles drawn by `sky` |
| Session.FirstHit | enhanced_disney_witch_game.py:806-807 | the click target is the first card in board order that is under the pointer, has entered and is neither revealed nor matched; none when no card qualifies |
| Session.HandleCardClick | enhanced_disney_witch_game.py:801-814 | a click is ignored when two cards are pending or no card qualifies, and accepted otherwise; an accepted click reveals exactly the first qualifying card at `now`, appends it to the pending list and changes no other card; moves go up by one exactly when the pending list reaches two; score, pairs, win and effects are untouched |
| Session.MatchBurst | enhanced_disney_witch_game.py:832-839 | a match spawns 30 live particles in each card's colour |
| Session.VictoryExplosion | enhanced_disney_witch_game.py:844-850 | the win spawns 200 live particles |
| Session.UpdateRevealed | enhanced_disney_witch_game.py:816-856 | nothing changes unless two cards are pending and each was revealed at least 1800 ms ago; then equal colours match both cards with one more pair, 250 more points, the match burst (then the victory explosion on the last pair) appended to the kept confetti, and the win exactly when the pairs reach the total, while different colours turn both back and leave the counters alone; the pending list empties and no other card changes |
| Session.RestartGame | enhanced_disney_witch_game.py:1013-1028 | a restart zeroes score, moves and pairs, clears the win, the pending list and the confetti, keeps the background sparkles, takes the newly dealt board (so every colour is again on two fresh cards), and yields a valid game |
| Session.UpdateBackgroundEffects | enhanced_disney_witch_game.py:897-909 | the frame's effect update touches only the two pools: the background becomes its top-up and the confetti its pruned tick, so the background stays within the larger of its size and 102, and the confetti only shrinks and holds only live particles |
| Session.UpdateCards | enhanced_disney_witch_game.py:1079-1080 | every card receives one `Card.update` tick with its own inputs, so each keeps its flags, index and colour, keeps its entrance, and keeps flip progress in [0, 1] |
| Session.Step | enhanced_disney_witch_game.py:1060-1080 | the main-loop dispatch keeps the game valid; a left click reaches the board exactly when the game is not won, R restarts exactly a won game, and a frame runs the frame updates |
| Session.Run | enhanced_disney_witch_game.py:1049-1080 | any sequence of events keeps the game valid |
| Session.ClickPreservesValid | enhanced_disney_witch_game.py:801-814 | a click keeps the invariant: at most two distinct pending cards, exactly the revealed unmatched ones, with pairs, score and moves consistent |
| Session.ResolvePreservesValid | enhanced_disney_witch_game.py:816-856 | resolution keeps the invariant, including two matched cards per counted pair and a win exactly when all pairs are found |
| Session.FramePreservesValid | enhanced_disney_witch_game.py:1074-1080 | one frame (`Session.Frame`: resolution, then the effect pools, then every card) keeps the invariant |
| Session.ResolveProgress | enhanced_disney_witch_game.py:816-856 | resolving a pair never unmatches a card, changes a colour, or lowers the score, the moves or the pairs |
| Session.FrameProgress | enhanced_disney_witch_game.py:1074-1080 | a frame (resolution, then the effect pools, then every card) never unmatches a card, changes a colour, or lowers the score, the moves or the pairs |
| Session.StepProgress | enhanced_disney_witch_game.py:826-829 | no click or frame unmatches a card, changes a colour, lowers score, moves or pairs, or clears the win |
| Session.RunProgress | enhanced_disney_witch_game.py:1049-1080 | between restarts, any run of clicks and frames never takes back a match, a point, a move, a pair or the win |
| Session.WonIffAllMatched | enhanced_disney_witch_game.py:841-843 | in a reachable game the win flag is set exactly when every card is matched |
| Session.WonIsFrozen | enhanced_disney_witch_game.py:1063-1071 | once won, nothing is pending, and until the restart key no event changes the win, the counters or the matched cards |
| Session.DemoMismatch | enhanced_disney_witch_game.py:820-854 | on a quiet two-by-two board A B A B, clicking 0 at 0 ms and 1 at 10 ms counts one move; at 1809 ms card 1 is 1799 ms old, so nothing resolves; at 1810 ms the mismatch turns both back and leaves the board quiet again |
| Session.DemoMatch | enhanced_disney_witch_game.py:822-829 | from the board the mismatch leaves, clicking cards 0 and 2 counts the second move, and after the dwell both are matched with one pair and 250 points, the game not yet won |
| Session.DemoWin | enhanced_disney_witch_game.py:841-843 | from the board the match leaves, the last pair (cards 1 and 3) wins with two pairs, 500 points, three moves and every card matched |

## Left out

- Rendering is left out: every `draw*` method, `draw_rounded_rect`, fonts,
  the display, the night sky, and `update_hover` with the hover scale.
  These only produce pixels.
- `Moon`, `TangleCastle`, `FlyingFairy` and `FlyingWitch` are left out. Their
  motion is decorative and has no game meaning. The restart's new fairies
  are left out for the same reason.
- `handle_resize` and F11 are left out. They are window plumbing and mutate
  the global window size. In the source, `handle_resize` calls
  `setup_cards` without resetting the counters or the pending list.
- Pixel geometry is left out: `get_rect`, `collidepoint`, and the easing of
  `x`, `y`, `scale` and `target_scale`. These are replaced by the `under`
  set and the `entered` flag with its `settled` input. The card's target
  position is modelled.
- `glow_intensity`, the sparkle's `twinkle_speed` and `color`, and the
  particle colours' role in drawing are left out. They are used only for
  drawing.
- Random distributions are not modelled; every draw is an input. Sparkle
  draws carry their constructor ranges as a predicate. Particle velocities,
  sizes and rotation speeds are unconstrained.
- Effects.ParticleDraw: the victory burst's colour is an unconstrained
  input. It is not restricted to the palette, which is what the source's
  `random.choice` would pick from.
- The quit/escape handling and the frame rate of `run` are left out.
- IEEE float rounding is left out. Life, flip progress and positions use
  exact reals.

=== FILE: basics.dfy ===
/** Small helpers shared by the memory-game model: an optional value, a
    success-or-error result, and integer minimum/maximum. */
module Basics {

  /** A value that may be absent. */
  datatype Option<+T> = None | Some(value: T)

  /** The outcome of an operation that can fail with an error value. */
  datatype Result<+R, +E> = Success(value: R) | Failure(error: E)

  function Min(a: int, b: int): int {
    if a <= b then a else b
  }

  function Max(a: int, b: int): int {
    if a >= b then a else b
  }
}

=== FILE: cards.dfy ===
/** One card of the board (`Card`): its identity and colour, the two flags
    that make up its game state, its reveal timestamp, the flip animation, the
    staggered entrance and the sparkles around it once matched.

    Pixel geometry, the eased `y`/`scale` values and hover are abstracted: the
    entrance is the `entered` flag, set by `Update` once the easing has settled,
    and the pointer hit test is done by the caller (see `Session`). */
module Cards {
  import opened Basics
  import opened Palette
  import opened Effects

  /** Flip progress gained or lost on each tick. */
  const FlipStep: real := 0.18
  /** Milliseconds between the entrances of consecutive cards. */
  const EntranceStagger: nat := 60

  /** `revealed` and `matched` are independent flags, as in the source: a
      matched card stays revealed, a hidden card has both false. */
  datatype Card = Card(
    index: nat,
    colour: Colour,
    colourName: string,
    targetX: int,
    targetY: int,
    revealed: bool,
    matched: bool,
    revealTime: int,
    flip: real,
    entranceDelay: int,
    entered: bool,
    sparkles: seq<Effect>)

  /** A freshly constructed card at grid position `index`. */
  function NewCard(x: int, y: int, charm: Charm, index: nat): (c: Card)
    ensures c.index == index && c.colour == charm.colour && c.colourName == charm.name
    ensures c.targetX == x && c.targetY == y
    ensures Fresh(c) && c.entranceDelay == index * EntranceStagger
  {
    Card(index, charm.colour, charm.name, x, y, false, false, 0, 0.0,
         index * EntranceStagger, false, [])
  }

  /** The state of a card that has just been dealt: hidden, not entered, flat,
      without sparkles. */
  predicate Fresh(c: Card) {
    && !c.revealed && !c.matched && !c.entered
    && c.revealTime == 0 && c.flip == 0.0 && c.sparkles == []
  }

  /** A card the player may turn over: it has finished its entrance and is
      neither revealed nor matched. */
  predicate Clickable(c: Card) {
    c.entered && !c.revealed && !c.matched
  }

  /** The card face is shown (flip moves towards 1) while revealed or matched. */
  predicate Shown(c: Card) {
    c.revealed || c.matched
  }

  /** One step of the flip animation: a fixed step towards 1 while shown,
      towards 0 otherwise, clamped to [0, 1]. */
  function Flip(f: real, shown: bool): (r: real)
    ensures 0.0 <= f <= 1.0 ==> 0.0 <= r <= 1.0
    ensures shown ==> r >= f || r == 1.0
    ensures !shown ==> r <= f || r == 0.0
  {
    if shown then
      if f + FlipStep <= 1.0 then f + FlipStep else 1.0
    else
      if f - FlipStep >= 0.0 then f - FlipStep else 0.0
  }

  /** `n` consecutive flip steps in the same direction. */
  function FlipN(f: real, shown: bool, n: nat): real
  {
    if n == 0 then f else Flip(FlipN(f, shown, n - 1), shown)
  }

  /** The linear ramp the flip follows: `n` steps away from `f`, clamped. */
  function Ramp(f: real, shown: bool, n: nat): real
  {
    var v := if shown then f + FlipStep * (n as real) else f - FlipStep * (n as real);
    if v > 1.0 then 1.0 else if v < 0.0 then 0.0 else v
  }

  /** Stepping the flip `n` times is the clamped linear ramp, from any start
      value that lies in [0, 1]. */
  lemma {:induction false} FlipIsRamp(f: real, shown: bool, n: nat)
    requires 0.0 <= f <= 1.0
    ensures FlipN(f, shown, n) == Ramp(f, shown, n)
  {
    if n > 0 {
      FlipIsRamp(f, shown, n - 1);
    }
  }

  /** The flip completes in a bounded number of ticks: six steps reach the end
      of the ramp from any position. */
  lemma FlipCompletes(f: real, shown: bool)
    requires 0.0 <= f <= 1.0
    ensures FlipN(f, shown, 6) == (if shown then 1.0 else 0.0)
  {
    FlipIsRamp(f, shown, 6);
  }

  /** One tick of `Card.update`. `now` is the millisecond clock, `settled`
      says whether this tick's entrance easing has converged, and `spawn` is
      the sparkle drawn this tick, if the random check asked for one. */
  function Update(c: Card, now: int, settled: bool, spawn: Option<SparkleDraw>): (r: Card)
    ensures r.index == c.index && r.colour == c.colour && r.colourName == c.colourName
    ensures r.targetX == c.targetX && r.targetY == c.targetY
    ensures r.revealed == c.revealed && r.matched == c.matched
    ensures r.revealTime == c.revealTime && r.entranceDelay == c.entranceDelay
    ensures c.entered ==> r.entered
    ensures r.entered && !c.entered ==> now > c.entranceDelay && settled
    ensures now > c.entranceDelay && settled ==> r.entered
    ensures 0.0 <= c.flip <= 1.0 ==> 0.0 <= r.flip <= 1.0
    ensures Shown(c) ==> r.flip >= c.flip || r.flip == 1.0
    ensures !Shown(c) ==> r.flip <= c.flip || r.flip == 0.0
    ensures !c.matched ==> |r.sparkles| <= |c.sparkles|
    ensures c.matched ==> |r.sparkles| <= |c.sparkles| + 1
    ensures forall e <- r.sparkles :: Alive(e)
    ensures r.flip == Flip(c.flip, Shown(c))
    ensures !(c.matched && spawn.Some?) ==> r.sparkles == Tick(c.sparkles)
    ensures c.matched && spawn.Some? ==> r.sparkles == Tick(c.sparkles) + Tick([NewSparkle(spawn.value)])
  {
    var entered := c.entered || (now > c.entranceDelay && settled);
    var born := if c.matched && spawn.Some? then [NewSparkle(spawn.value)] else [];
    TickAppend(c.sparkles, born);
    assert c.sparkles + [] == c.sparkles;
    c.(entered := entered,
       sparkles := Tick(c.sparkles + born),
       flip := Flip(c.flip, Shown(c)))
  }

  /** The inputs of one card tick: the clock, whether the entrance easing
      has settled, and the sparkle drawn, if any. */
  datatype CardTick = CardTick(now: int, settled: bool, spawn: Option<SparkleDraw>)

  /** The card after the ticks `ts`, applied in order. */
  function UpdateSeq(c: Card, ts: seq<CardTick>): Card
    decreases |ts|
  {
    if |ts| == 0 then c
    else
      var t := ts[|ts| - 1];
      Update(UpdateSeq(c, ts[..|ts| - 1]), t.now, t.settled, t.spawn)
  }

  /** Over any run of ticks a card keeps its game flags, and its flip
      progress follows the clamped ramp from where it started. */
  lemma {:induction false} UpdatesFollowRamp(c: Card, ts: seq<CardTick>)
    requires 0.0 <= c.flip <= 1.0
    ensures UpdateSeq(c, ts).revealed == c.revealed && UpdateSeq(c, ts).matched == c.matched
    ensures UpdateSeq(c, ts).flip == Ramp(c.flip, Shown(c), |ts|)
  {
    FlipStepsFollowRamp(c, ts);
    FlipIsRamp(c.flip, Shown(c), |ts|);
  }

  lemma {:induction false} FlipStepsFollowRamp(c: Card, ts: seq<CardTick>)
    ensures UpdateSeq(c, ts).revealed == c.revealed && UpdateSeq(c, ts).matched == c.matched
    ensures UpdateSeq(c, ts).flip == FlipN(c.flip, Shown(c), |ts|)
    decreases |ts|
  {
    if |ts| > 0 {
      FlipStepsFollowRamp(c, ts[..|ts| - 1]);
    }
  }

  /** Six ticks of `Card.update` finish the flip of a card, whatever the
      other inputs of those ticks: a shown card is fully turned up, a hidden
      one fully turned down. */
  lemma CardFlipCompletes(c: Card, ts: seq<CardTick>)
    requires 0.0 <= c.flip <= 1.0 && |ts| == 6
    ensures UpdateSeq(c, ts).flip == (if Shown(c) then 1.0 else 0.0)
  {
    FlipStepsFollowRamp(c, ts);
    FlipCompletes(c.flip, Shown(c));
  }
}

=== FILE: deal.dfy ===
/** Dealing the board (`setup_cards`): take the first rows*cols/2 palette
    charms, put each in twice, shuffle, and lay the cards out row by row.

    The shuffle is `random.shuffle`, which is Fisher-Yates: for i from n-1
    down to 1 it swaps position i with a drawn position j <= i. The draws are
    an input, one per swap, as CPython's `random.shuffle` makes them. */
module Dealing {
  import opened Basics
  import opened Palette
  import opened Cards

  const Rows: nat := 3
  const Cols: nat := 4
  const CardWidth: int := 160
  const CardHeight: int := 200
  const CardMargin: int := 20

  /** Size of the window the board is centred in. */
  datatype Screen = Screen(width: int, height: int)

  /** The deal runs past the end of the shuffled deck at position `index`
      (an `IndexError` in the source). */
  datatype DealError = CardDataExhausted(index: nat)

  /** Every element twice in a row, in order: the deck before shuffling. */
  function Pairs<T>(s: seq<T>): (r: seq<T>)
    ensures |r| == 2 * |s|
    ensures forall k :: 0 <= k < |s| ==> r[2 * k] == s[k] && r[2 * k + 1] == s[k]
    ensures multiset(r) == multiset(s) + multiset(s)
  {
    if |s| == 0 then []
    else
      assert s == [s[0]] + s[1..];
      var rest := Pairs(s[1..]);
      var r := [s[0], s[0]] + rest;
      forall k | 1 <= k < |s|
        ensures r[2 * k] == s[k] && r[2 * k + 1] == s[k]
      {
        assert s[k] == s[1..][k - 1];
        assert r[2 * k] == rest[2 * (k - 1)] && r[2 * k + 1] == rest[2 * (k - 1) + 1];
      }
      assert multiset(r) == multiset([s[0], s[0]]) + multiset(rest);
      r
  }

  function Swap<T>(s: seq<T>, i: nat, j: nat): (r: seq<T>)
    requires i < |s| && j < |s|
    ensures |r| == |s| && multiset(r) == multiset(s)
    ensures r[i] == s[j] && r[j] == s[i]
    ensures forall k :: 0 <= k < |s| && k != i && k != j ==> r[k] == s[k]
  {
    s[i := s[j]][j := s[i]]
  }

  /** `draws` is a possible run of the random draws of a Fisher-Yates shuffle
      of `n` elements: one draw per position n-1 down to 1, each drawn
      position at most the current one. */
  predicate ValidDraws(draws: seq<nat>, n: nat) {
    && |draws| == (if n == 0 then 0 else n - 1)
    && forall k :: 0 <= k < |draws| ==> draws[k] < n - k
  }

  /** The swaps of the shuffle from the `k`-th draw on. */
  function ShuffleFrom<T>(s: seq<T>, draws: seq<nat>, k: nat): (r: seq<T>)
    requires ValidDraws(draws, |s|) && k <= |draws|
    ensures |r| == |s| && multiset(r) == multiset(s)
    decreases |draws| - k
  {
    if k == |draws| then s
    else ShuffleFrom(Swap(s, |s| - 1 - k, draws[k]), draws, k + 1)
  }

  /** `random.shuffle` with the given draws: a permutation of the deck. */
  function Shuffle<T>(s: seq<T>, draws: seq<nat>): (r: seq<T>)
    requires ValidDraws(draws, |s|)
    ensures |r| == |s| && multiset(r) == multiset(s)
  {
    ShuffleFrom(s, draws, 0)
  }

  /** Number of cards in the shuffled deck: two per charm taken. */
  function DeckSize(rows: nat, cols: nat, charms: nat): nat {
    2 * Min(rows * cols / 2, charms)
  }

  /** Left edge of the first column: the grid is centred horizontally. */
  function StartX(screen: Screen, cols: nat): int {
    (screen.width - (cols * (CardWidth + CardMargin) - CardMargin)) / 2
  }

  /** Top edge of the first row: centred vertically, 40 pixels lower. */
  function StartY(screen: Screen, rows: nat): int {
    (screen.height - (rows * (CardHeight + CardMargin) - CardMargin)) / 2 + 40
  }

  /** The colour and name a card was dealt with. */
  function CharmOf(c: Card): Charm {
    Charm(c.colour, c.colourName)
  }

  function CharmsOf(cards: seq<Card>): (r: seq<Charm>)
    ensures |r| == |cards|
  {
    seq(|cards|, i requires 0 <= i < |cards| => CharmOf(cards[i]))
  }

  /** The charms the deal uses: the first rows*cols/2 of the palette, or all
      of it when it is shorter. */
  function Selected(rows: nat, cols: nat, palette: seq<Charm>): seq<Charm> {
    palette[..Min(rows * cols / 2, |palette|)]
  }

  /** Card `i` of the board: row i / cols, column i % cols. */
  function Cell(i: nat, cols: nat, screen: Screen, rows: nat, charm: Charm): Card
    requires cols > 0
  {
    NewCard(StartX(screen, cols) + (i % cols) * (CardWidth + CardMargin),
            StartY(screen, rows) + (i / cols) * (CardHeight + CardMargin),
            charm, i)
  }

  /** The cards laid out in row-major order, one per element of the deck. */
  function Board(data: seq<Charm>, rows: nat, cols: nat, screen: Screen): (cards: seq<Card>)
    requires cols > 0 || |data| == 0
    ensures |cards| == |data| && CharmsOf(cards) == data
    ensures forall i :: 0 <= i < |cards| ==> cards[i] == Cell(i, cols, screen, rows, data[i])
  {
    seq(|data|, i requires 0 <= i < |data| => Cell(i, cols, screen, rows, data[i]))
  }

  /** The shuffled deck: the selected charms, each twice, shuffled. */
  function Deck(rows: nat, cols: nat, palette: seq<Charm>, draws: seq<nat>): (d: seq<Charm>)
    requires ValidDraws(draws, DeckSize(rows, cols, |palette|))
    ensures |d| == DeckSize(rows, cols, |palette|)
    ensures multiset(d) == multiset(Selected(rows, cols, palette)) + multiset(Selected(rows, cols, palette))
  {
    Shuffle(Pairs(Selected(rows, cols, palette)), draws)
  }

  /** The shuffled deck covers the grid exactly when the grid is even and the
      palette has enough charms; it is never larger than the grid. */
  lemma DeckCoversGrid(rows: nat, cols: nat, charms: nat)
    ensures DeckSize(rows, cols, charms) <= rows * cols
    ensures cols == 0 ==> DeckSize(rows, cols, charms) == 0
    ensures DeckSize(rows, cols, charms) == rows * cols
            <==> (rows * cols) % 2 == 0 && rows * cols / 2 <= charms
  {
  }

  /** The board dealt from `palette` with the shuffle draws `draws`. The deal
      fails exactly when the grid is odd or needs more charms than the
      palette has; otherwise card `i` sits in row i / cols, column i % cols,
      enters after 60 * i milliseconds, and every selected charm is on the
      board exactly as often as in two copies of the selection. */
  function Deal(rows: nat, cols: nat, palette: seq<Charm>, draws: seq<nat>, screen: Screen)
    : (r: Result<seq<Card>, DealError>)
    requires ValidDraws(draws, DeckSize(rows, cols, |palette|))
    ensures r.Success? <==> (rows * cols) % 2 == 0 && rows * cols / 2 <= |palette|
    ensures r.Failure? ==> r.error == CardDataExhausted(DeckSize(rows, cols, |palette|))
    ensures r.Success? ==> |r.value| == rows * cols
    ensures r.Success? && cols == 0 ==> r.value == []
    ensures r.Success? ==> forall i :: 0 <= i < |r.value| ==>
              && r.value[i].index == i
              && r.value[i].entranceDelay == i * EntranceStagger
              && Fresh(r.value[i])
              && r.value[i].targetX == StartX(screen, cols) + (i % cols) * (CardWidth + CardMargin)
              && r.value[i].targetY == StartY(screen, rows) + (i / cols) * (CardHeight + CardMargin)
    ensures r.Success? ==>
              multiset(CharmsOf(r.value))
              == multiset(Selected(rows, cols, palette)) + multiset(Selected(rows, cols, palette))
  {
    DeckCoversGrid(rows, cols, |palette|);
    var data := Deck(rows, cols, palette, draws);
    if |data| < rows * cols then
      Failure(CardDataExhausted(|data|))
    else
      Success(Board(data, rows, cols, screen))
  }

  lemma MulAtLeast(a: int, b: int)
    requires a >= 0
    ensures b >= 1 ==> a * b >= a && b * a >= a
  {
    if b >= 1 {
      assert a * b == a * (b - 1) + a;
      assert a * (b - 1) >= 0;
    }
  }

  /** Cell (row, col) of a grid with `cols` columns has index row * cols + col,
      and that index gives the cell back. */
  lemma CellIndex(row: nat, col: nat, rows: nat, cols: nat)
    requires row < rows && col < cols
    ensures (row * cols + col) / cols == row && (row * cols + col) % cols == col
    ensures row * cols + col < rows * cols
  {
    var i := row * cols + col;
    var q, m := i / cols, i % cols;
    assert i == q * cols + m;
    var d := row - q;
    assert d * cols == row * cols - q * cols;
    assert d * cols == m - col;
    MulAtLeast(cols, d);
    MulAtLeast(cols, -d);
    assert (rows - row) * cols == rows * cols - row * cols;
    MulAtLeast(cols, rows - row);
  }

  /** The card the loops build at (row, col) is the row-major `Cell`. */
  lemma CellAt(row: nat, col: nat, rows: nat, cols: nat, screen: Screen, charm: Charm)
    requires row < rows && col < cols
    ensures row * cols + col < rows * cols
    ensures Cell(row * cols + col, cols, screen, rows, charm)
            == NewCard(StartX(screen, cols) + col * (CardWidth + CardMargin),
                       StartY(screen, rows) + row * (CardHeight + CardMargin),
                       charm, row * cols + col)
  {
    CellIndex(row, col, rows, cols);
  }

  lemma NextRow(row: nat, cols: nat)
    ensures row * cols + cols == (row + 1) * cols
  {
  }

  /** `cards` are the first |cards| cells of the board dealt from `data`. */
  predicate Laid(cards: seq<Card>, data: seq<Charm>, rows: nat, cols: nat, screen: Screen) {
    && |cards| <= |data|
    && forall i :: 0 <= i < |cards| ==> cols > 0 && cards[i] == Cell(i, cols, screen, rows, data[i])
  }

  /** The inner loop of the deal: the cards of one row, left to right. */
  method DealRow(data: seq<Charm>, rows: nat, cols: nat, screen: Screen, row: nat, cards: seq<Card>)
    returns (r: Result<seq<Card>, DealError>)
    requires row < rows && |cards| == row * cols
    requires Laid(cards, data, rows, cols, screen)
    ensures r.Success? ==> |r.value| == row * cols + cols && Laid(r.value, data, rows, cols, screen)
    ensures r.Failure? ==> r.error == CardDataExhausted(|data|) && |data| < rows * cols
  {
    var startX := StartX(screen, cols);
    var startY := StartY(screen, rows);
    var acc := cards;
    var index: nat := |cards|;
    var col: nat := 0;
    while col < cols
      invariant col <= cols
      invariant index == row * cols + col && |acc| == index
      invariant Laid(acc, data, rows, cols, screen)
    {
      var x := startX + col * (CardWidth + CardMargin);
      var y := startY + row * (CardHeight + CardMargin);
      if index >= |data| {
        CellIndex(row, col, rows, cols);
        return Failure(CardDataExhausted(index));
      }
      CellAt(row, col, rows, cols, screen, data[index]);
      acc := acc + [NewCard(x, y, data[index], index)];
      index := index + 1;
      col := col + 1;
    }
    return Success(acc);
  }

  /** The deal as the source writes it: a loop over rows around a loop over
      columns, with a running index into the shuffled deck. */
  method SetupCards(rows: nat, cols: nat, palette: seq<Charm>, draws: seq<nat>, screen: Screen)
    returns (r: Result<seq<Card>, DealError>)
    requires ValidDraws(draws, DeckSize(rows, cols, |palette|))
    ensures r == Deal(rows, cols, palette, draws, screen)
  {
    DeckCoversGrid(rows, cols, |palette|);
    var data := Deck(rows, cols, palette, draws);
    var cards: seq<Card> := [];
    var row: nat := 0;
    while row < rows
      invariant row <= rows
      invariant |cards| == row * cols
      invariant Laid(cards, data, rows, cols, screen)
    {
      var next := DealRow(data, rows, cols, screen, row, cards);
      if next.Failure? {
        return next;
      }
      cards := next.value;
      NextRow(row, cols);
      row := row + 1;
    }
    assert cards == Board(data, rows, cols, screen);
    return Success(cards);
  }

  /** Each palette charm occurs once in the palette. */
  lemma PaletteOnce(k: nat)
    requires k < |WitchColours|
    ensures multiset(WitchColours)[WitchColours[k]] == 1
  {
    WitchColoursDistinct();
    DistinctOnce(WitchColours, k);
  }

  /** The board of the game: three rows of four, dealt from the six palette
      charms. It always succeeds, and every palette colour is on exactly two
      cards, so the board has six pairs. */
  lemma StandardDeal(draws: seq<nat>, screen: Screen)
    requires ValidDraws(draws, Rows * Cols)
    ensures DeckSize(Rows, Cols, |WitchColours|) == Rows * Cols
    ensures Deal(Rows, Cols, WitchColours, draws, screen).Success?
    ensures |Deal(Rows, Cols, WitchColours, draws, screen).value| == 12
    ensures forall k :: 0 <= k < |WitchColours| ==>
              multiset(CharmsOf(Deal(Rows, Cols, WitchColours, draws, screen).value))[WitchColours[k]] == 2
  {
    assert Selected(Rows, Cols, WitchColours) == WitchColours;
    forall k | 0 <= k < |WitchColours|
      ensures multiset(WitchColours)[WitchColours[k]] == 1
    {
      PaletteOnce(k);
    }
  }
}

=== FILE: effects.dfy ===
/** Short-lived visual effects: the sparkles (`MagicalSparkle`) that twinkle in
    the background and around matched cards, and the confetti particles
    (`FloatingParticle`) of the match and victory bursts. Each tick moves an
    effect and takes a fixed amount of life from it; a pool keeps only the
    effects whose life is still positive. Random draws (spawn position, drift,
    size, initial life) are inputs. */
module Effects {
  import opened Basics
  import opened Palette

  /** Life every effect loses on each tick. */
  const Decay: real := 1.5
  /** Added to a particle's vertical speed on each tick. */
  const Gravity: real := 0.08
  /** Initial (and maximal) life of a confetti particle. */
  const ParticleLife: real := 60.0
  /** Below this many background sparkles the pool is topped up. */
  const BackgroundTarget: nat := 100
  /** Number of background sparkles added by one top-up. */
  const TopUpBatch: nat := 3

  /** The random draws that make one sparkle. */
  datatype SparkleDraw = SparkleDraw(x: real, y: real, size: real, life: real, driftX: real, driftY: real)

  /** The ranges the sparkle constructor draws its values from. */
  predicate SparkleDrawInRange(d: SparkleDraw) {
    && 1.0 <= d.size <= 4.0
    && 40.0 <= d.life <= 80.0
    && -0.5 <= d.driftX <= 0.5
    && -1.2 <= d.driftY <= -0.4
  }

  /** The random draws that make one confetti particle; `colour` is only used
      by the victory burst, which picks a random palette colour. */
  datatype ParticleDraw = ParticleDraw(x: real, y: real, vx: real, vy: real, size: real,
                                       rotationSpeed: real, colour: Colour)

  datatype Effect =
    | Sparkle(x: real, y: real, size: real, life: real, maxLife: real, driftX: real, driftY: real)
    | Particle(x: real, y: real, vx: real, vy: real, size: real, rotation: real,
               rotationSpeed: real, life: real, maxLife: real, colour: Colour)

  predicate Alive(e: Effect) {
    e.life > 0.0
  }

  /** A fresh sparkle: its maximal life is the life it was drawn with. */
  function NewSparkle(d: SparkleDraw): (e: Effect)
    ensures e.Sparkle? && e.life == e.maxLife == d.life
    ensures SparkleDrawInRange(d) ==> Alive(e)
  {
    Sparkle(d.x, d.y, d.size, d.life, d.life, d.driftX, d.driftY)
  }

  /** A fresh confetti particle of the given colour, unrotated, at full life. */
  function NewParticle(d: ParticleDraw, colour: Colour): (e: Effect)
    ensures e.Particle? && e.colour == colour
    ensures e.life == e.maxLife == ParticleLife && Alive(e)
  {
    Particle(d.x, d.y, d.vx, d.vy, d.size, 0.0, d.rotationSpeed, ParticleLife, ParticleLife, colour)
  }

  /** One tick of a single effect (`MagicalSparkle.update`,
      `FloatingParticle.update`). */
  function Advance(e: Effect): (r: Effect)
    ensures r.life == e.life - Decay
    ensures r.maxLife == e.maxLife && r.size == e.size
    ensures r.Sparkle? <==> e.Sparkle?
    ensures e.Particle? ==> r.colour == e.colour && r.vy == e.vy + Gravity
  {
    match e
    case Sparkle(x, y, size, life, maxLife, dx, dy) =>
      Sparkle(x + dx, y + dy, size, life - Decay, maxLife, dx, dy)
    case Particle(x, y, vx, vy, size, rot, rotSpeed, life, maxLife, colour) =>
      Particle(x + vx, y + vy, vx, vy + Gravity, size, rot + rotSpeed, rotSpeed,
               life - Decay, maxLife, colour)
  }

  /** Ticks every effect of a pool and keeps, in order, those still alive. */
  function Tick(pool: seq<Effect>): (r: seq<Effect>)
    ensures |r| <= |pool|
    ensures forall e <- r :: Alive(e)
    ensures forall e <- r :: exists i :: 0 <= i < |pool| && e == Advance(pool[i])
    ensures forall i :: 0 <= i < |pool| && Alive(Advance(pool[i])) ==> Advance(pool[i]) in r
    ensures (forall i :: 0 <= i < |pool| ==> Alive(Advance(pool[i]))) ==> |r| == |pool|
    ensures (forall i :: 0 <= i < |pool| ==> !Alive(Advance(pool[i]))) ==> r == []
  {
    if |pool| == 0 then []
    else
      var rest := Tick(pool[1..]);
      assert forall i :: 1 <= i < |pool| ==> pool[i] == pool[1..][i - 1];
      var head := Advance(pool[0]);
      if Alive(head) then [head] + rest else rest
  }

  /** `n` consecutive ticks of a pool. */
  function TickN(pool: seq<Effect>, n: nat): seq<Effect>
    decreases n
  {
    if n == 0 then pool else TickN(Tick(pool), n - 1)
  }

  /** Ticking works element by element: the pool of a concatenation is the
      concatenation of the pools, so the survivors keep their order. */
  lemma {:induction false} TickAppend(a: seq<Effect>, b: seq<Effect>)
    ensures Tick(a + b) == Tick(a) + Tick(b)
  {
    if |a| == 0 {
      assert a + b == b;
    } else {
      assert (a + b)[1..] == a[1..] + b;
      TickAppend(a[1..], b);
    }
  }

  /** A pool whose every effect has at most `n` ticks of life left is empty
      after `n` ticks, whatever it holds. */
  lemma {:induction false} PoolExpires(pool: seq<Effect>, n: nat)
    requires n > 0
    requires forall e <- pool :: e.life <= Decay * (n as real)
    ensures TickN(pool, n) == []
    decreases n
  {
    var next := Tick(pool);
    if n == 1 {
      assert forall i :: 0 <= i < |pool| ==> pool[i] in pool;
    } else {
      forall e <- next
        ensures e.life <= Decay * ((n - 1) as real)
      {
        var i :| 0 <= i < |pool| && e == Advance(pool[i]);
        assert pool[i] in pool;
      }
      PoolExpires(next, n - 1);
    }
  }

  /** Sparkles start with at most 80 life and particles with 60, so any pool
      of freshly drawn effects is gone within 54 ticks. */
  lemma FreshPoolExpires(pool: seq<Effect>)
    requires forall e <- pool :: e.life <= 80.0
    ensures TickN(pool, 54) == []
  {
    PoolExpires(pool, 54);
  }

  /** Ticking an empty pool is a no-op, however often it is done. */
  lemma {:induction false} EmptyPoolStaysEmpty(n: nat)
    ensures TickN([], n) == []
  {
    if n > 0 {
      EmptyPoolStaysEmpty(n - 1);
    }
  }

  /** The background part of `update_background_effects`: tick and prune the
      pool, then add a batch of three fresh sparkles when fewer than 100
      remain. `draw(k)` is the k-th sparkle drawn. */
  function TopUp(pool: seq<Effect>, draw: nat -> SparkleDraw): (r: seq<Effect>)
    ensures |r| <= Max(|pool|, BackgroundTarget + TopUpBatch - 1)
    ensures |Tick(pool)| < BackgroundTarget ==> |r| == |Tick(pool)| + TopUpBatch
    ensures |Tick(pool)| >= BackgroundTarget ==> r == Tick(pool)
    ensures |Tick(pool)| < BackgroundTarget ==>
              && r[..|Tick(pool)|] == Tick(pool)
              && forall k :: 0 <= k < TopUpBatch ==> r[|Tick(pool)| + k] == NewSparkle(draw(k))
    ensures (forall k: nat :: SparkleDrawInRange(draw(k))) ==> forall e <- r :: Alive(e)
  {
    var kept := Tick(pool);
    if |kept| < BackgroundTarget then
      var born := seq(TopUpBatch, k requires 0 <= k => NewSparkle(draw(k)));
      assert forall k :: 0 <= k < TopUpBatch ==> born[k] == NewSparkle(draw(k));
      kept + born
    else
      kept
  }

  /** However many frames pass, a background pool that starts with at most
      102 sparkles never holds more than 102. */
  lemma {:induction false} BackgroundStaysBounded(pool: seq<Effect>, draws: seq<nat -> SparkleDraw>)
    requires |pool| <= BackgroundTarget + TopUpBatch - 1
    ensures |TopUpAll(pool, draws)| <= BackgroundTarget + TopUpBatch - 1
    decreases |draws|
  {
    if |draws| > 0 {
      BackgroundStaysBounded(TopUp(pool, draws[0]), draws[1..]);
    }
  }

  /** One top-up per element of `draws`, in order. */
  function TopUpAll(pool: seq<Effect>, draws: seq<nat -> SparkleDraw>): seq<Effect>
    decreases |draws|
  {
    if |draws| == 0 then pool else TopUpAll(TopUp(pool, draws[0]), draws[1..])
  }
}

=== FILE: palette.dfy ===
/** The colours that identify the matching groups of cards. */
module Palette {

  /** An RGB colour. Two cards match exactly when their colours are equal. */
  datatype Colour = Rgb(r: int, g: int, b: int)

  /** A colour together with its display name. */
  datatype Charm = Charm(colour: Colour, name: string)

  /** The six card colours, in the order the deal takes them. */
  const WitchColours: seq<Charm> := [
    Charm(Rgb(255, 20, 147), "Rose Spell"),
    Charm(Rgb(138, 43, 226), "Purple Magic"),
    Charm(Rgb(0, 191, 255), "Sky Potion"),
    Charm(Rgb(50, 205, 50), "Forest Brew"),
    Charm(Rgb(255, 165, 0), "Pumpkin Glow"),
    Charm(Rgb(255, 215, 0), "Golden Charm")
  ]

  /** No two charms of the palette share a colour, so colour equality on the
      board is the same as "dealt from the same charm". */
  lemma WitchColoursDistinct()
    ensures |WitchColours| == 6 && DistinctColours(WitchColours)
  {
  }

  /** No two charms of `s` share a colour. */
  predicate DistinctColours(s: seq<Charm>) {
    forall i, j :: 0 <= i < j < |s| ==> s[i].colour != s[j].colour
  }

  /** Dropping the first charm keeps the colours distinct. */
  lemma DistinctTail(s: seq<Charm>)
    requires DistinctColours(s) && |s| > 0
    ensures DistinctColours(s[1..])
  {
    forall i, j | 0 <= i < j < |s| - 1
      ensures s[1..][i].colour != s[1..][j].colour
    {
      assert s[1..][i] == s[i + 1] && s[1..][j] == s[j + 1];
    }
  }

  /** In a sequence of charms with distinct colours every element occurs
      exactly once. */
  lemma {:induction false} DistinctOnce(s: seq<Charm>, k: nat)
    requires DistinctColours(s) && k < |s|
    ensures multiset(s)[s[k]] == 1
  {
    var tail := s[1..];
    assert s == [s[0]] + tail;
    assert multiset(s) == multiset{s[0]} + multiset(tail);
    if k == 0 {
      forall j | 0 <= j < |tail|
        ensures tail[j] != s[0]
      {
        assert tail[j] == s[j + 1];
      }
      assert s[0] !in tail;
    } else {
      assert s[k] == tail[k - 1];
      assert s[0] != s[k];
      DistinctTail(s);
      DistinctOnce(tail, k - 1);
    }
  }
}

=== FILE: session.dfy ===
/** The matching game (`EnhancedDisneyWitchGame`): the board, the pending
    list of at most two revealed cards, the counters, the win flag and the
    two effect pools, with the operations the frame loop drives.

    Time is the millisecond clock, passed in. The pointer hit test is the set
    `under` of card indices whose rectangle contains the click position. */
module Session {
  import opened Basics
  import opened Palette
  import opened Effects
  import opened Cards
  import opened Dealing

  /** Milliseconds each of the two pending cards must have been shown. */
  const RevealTime: int := 1800
  /** Score for each matched pair. */
  const MatchBonus: nat := 250
  /** Confetti particles spawned around each card of a matched pair. */
  const BurstPerCard: nat := 30
  /** Confetti particles of the victory explosion. */
  const VictoryBurst: nat := 200
  /** Background sparkles created with a new game. */
  const StartingSparkles: nat := 100
  /** Pairs on the board: half of the grid. */
  const TotalPairs: nat := Rows * Cols / 2

  datatype Game = Game(
    cards: seq<Card>,
    pending: seq<nat>,
    matchedPairs: nat,
    totalPairs: nat,
    won: bool,
    score: nat,
    moves: nat,
    particles: seq<Effect>,
    background: seq<Effect>)

  /** A card waiting for resolution: turned over, not yet matched. */
  predicate Pending(c: Card) {
    c.revealed && !c.matched
  }

  /** Number of matched cards on the board. */
  function MatchedCount(cards: seq<Card>): (n: nat)
    ensures n <= |cards|
  {
    if |cards| == 0 then 0
    else (if cards[0].matched then 1 else 0) + MatchedCount(cards[1..])
  }

  /** The reachable states of a game. The pending list names distinct cards
      and exactly the revealed unmatched ones; matched cards stay revealed;
      the pair counter counts matched cards in twos; the score is the bonus
      per pair; every pair found cost a move; the game is won exactly when
      every pair is found; flip progress stays in [0, 1]. */
  predicate Valid(g: Game) {
    && g.totalPairs == TotalPairs
    && |g.cards| == 2 * g.totalPairs
    && (forall i :: 0 <= i < |g.cards| ==> g.cards[i].index == i)
    && |g.pending| <= 2
    && (forall k :: 0 <= k < |g.pending| ==> g.pending[k] < |g.cards|)
    && (|g.pending| == 2 ==> g.pending[0] != g.pending[1])
    && (forall i :: 0 <= i < |g.cards| ==> (Pending(g.cards[i]) <==> i in g.pending))
    && (forall i :: 0 <= i < |g.cards| ==> g.cards[i].matched ==> g.cards[i].revealed)
    && (forall i :: 0 <= i < |g.cards| ==> 0.0 <= g.cards[i].flip <= 1.0)
    && MatchedCount(g.cards) == 2 * g.matchedPairs
    && g.score == MatchBonus * g.matchedPairs
    && g.moves >= g.matchedPairs + (if |g.pending| == 2 then 1 else 0)
    && (g.won <==> g.matchedPairs == g.totalPairs)
  }

  /** The board of a new game or a restart. */
  function Setup(draws: seq<nat>, screen: Screen): (cards: seq<Card>)
    requires ValidDraws(draws, Rows * Cols)
    ensures |cards| == 2 * TotalPairs
    ensures forall i :: 0 <= i < |cards| ==> cards[i].index == i && Fresh(cards[i])
  {
    StandardDeal(draws, screen);
    Deal(Rows, Cols, WitchColours, draws, screen).value
  }

  /** Every palette colour is on exactly two cards of a new board. */
  lemma SetupPairs(draws: seq<nat>, screen: Screen)
    requires ValidDraws(draws, Rows * Cols)
    ensures forall k :: 0 <= k < |WitchColours| ==>
              multiset(CharmsOf(Setup(draws, screen)))[WitchColours[k]] == 2
  {
    StandardDeal(draws, screen);
  }

  /** A new game (the constructor): the dealt board, zero counters and 100
      background sparkles drawn by `sky`. */
  function NewGame(draws: seq<nat>, screen: Screen, sky: nat -> SparkleDraw): (g: Game)
    requires ValidDraws(draws, Rows * Cols)
    ensures Valid(g) && !g.won && g.pending == []
    ensures |g.background| == StartingSparkles && g.particles == []
    ensures g.score == 0 && g.moves == 0 && g.matchedPairs == 0 && g.cards == Setup(draws, screen)
    ensures forall k :: 0 <= k < StartingSparkles ==> g.background[k] == NewSparkle(sky(k))
  {
    var sparkles := seq(StartingSparkles, (k: nat) => NewSparkle(sky(k)));
    assert forall k :: 0 <= k < StartingSparkles ==> sparkles[k] == NewSparkle(sky(k));
    var blank := Game([], [], 0, TotalPairs, false, 0, 0, [], sparkles);
    RestartGame(blank, draws, screen)
  }

  // ---------------------------------------------------------------- clicks

  /** Card `j` is under the pointer and may be turned over. */
  predicate Hit(cards: seq<Card>, under: set<nat>, j: nat) {
    j < |cards| && j in under && Clickable(cards[j])
  }

  /** The first card, in board order from `from`, that the click hits. */
  function FirstHit(cards: seq<Card>, under: set<nat>, from: nat): (r: Option<nat>)
    requires from <= |cards|
    ensures r.Some? ==> from <= r.value && Hit(cards, under, r.value)
    ensures r.Some? ==> forall j :: from <= j < r.value ==> !Hit(cards, under, j)
    ensures r.None? ==> forall j :: from <= j ==> !Hit(cards, under, j)
    decreases |cards| - from
  {
    if from == |cards| then None
    else if Hit(cards, under, from) then Some(from)
    else FirstHit(cards, under, from + 1)
  }

  /** `handle_card_click`: ignored while two cards are pending; otherwise the
      first card under the pointer that has entered and is neither revealed
      nor matched is revealed at `now` and appended to the pending list, and
      the move counter goes up when that makes two pending cards. */
  function HandleCardClick(g: Game, under: set<nat>, now: int): (r: Game)
    ensures |g.pending| >= 2 ==> r == g
    ensures r.pending == g.pending ==> r == g
    ensures |g.pending| < 2 && (exists j :: Hit(g.cards, under, j)) ==> r.pending != g.pending
    ensures r.pending != g.pending ==>
              && |r.pending| == |g.pending| + 1 <= 2
              && var i := r.pending[|g.pending|];
              && Hit(g.cards, under, i)
              && (forall j :: j < i ==> !Hit(g.cards, under, j))
              && r.pending == g.pending + [i]
              && r.cards == g.cards[i := g.cards[i].(revealed := true, revealTime := now)]
    ensures r.moves == g.moves + (if |g.pending| == 1 && |r.pending| == 2 then 1 else 0)
    ensures r.score == g.score && r.matchedPairs == g.matchedPairs && r.won == g.won
    ensures r.totalPairs == g.totalPairs && r.particles == g.particles && r.background == g.background
  {
    if |g.pending| >= 2 then g
    else
      match FirstHit(g.cards, under, 0)
      case None => g
      case Some(i) =>
        var pending := g.pending + [i];
        g.(cards := g.cards[i := g.cards[i].(revealed := true, revealTime := now)],
           pending := pending,
           moves := if |pending| == 2 then g.moves + 1 else g.moves)
  }

  // ------------------------------------------------------------ resolution

  /** Every pending card has been shown for at least `RevealTime`, each
      measured from its own reveal. */
  predicate Due(g: Game, now: int)
    requires forall k :: 0 <= k < |g.pending| ==> g.pending[k] < |g.cards|
  {
    forall k :: 0 <= k < |g.pending| ==> now - g.cards[g.pending[k]].revealTime >= RevealTime
  }

  function SetMatched(cards: seq<Card>, i: nat): seq<Card>
    requires i < |cards|
  {
    cards[i := cards[i].(matched := true)]
  }

  function Hide(cards: seq<Card>, i: nat): seq<Card>
    requires i < |cards|
  {
    cards[i := cards[i].(revealed := false)]
  }

  /** The confetti of one match: 30 particles in the first card's colour,
      then 30 in the second's. `draw(k)` is the k-th particle drawn. */
  function MatchBurst(c1: Colour, c2: Colour, draw: nat -> ParticleDraw): (ps: seq<Effect>)
    ensures |ps| == 2 * BurstPerCard
    ensures forall k :: 0 <= k < |ps| ==> ps[k].Particle? && Alive(ps[k])
    ensures forall k :: 0 <= k < BurstPerCard ==> ps[k].colour == c1
    ensures forall k :: BurstPerCard <= k < |ps| ==> ps[k].colour == c2
  {
    var ps := seq(2 * BurstPerCard, (k: nat) =>
                    NewParticle(draw(k), if k < BurstPerCard then c1 else c2));
    assert forall k :: 0 <= k < |ps| ==>
             ps[k] == NewParticle(draw(k), if k < BurstPerCard then c1 else c2);
    ps
  }

  /** The victory explosion, drawn after the match burst. */
  function VictoryExplosion(draw: nat -> ParticleDraw): (ps: seq<Effect>)
    ensures |ps| == VictoryBurst
    ensures forall k :: 0 <= k < |ps| ==> ps[k].Particle? && Alive(ps[k])
  {
    var ps := seq(VictoryBurst, (k: nat) =>
                    NewParticle(draw(2 * BurstPerCard + k), draw(2 * BurstPerCard + k).colour));
    assert forall k :: 0 <= k < |ps| ==>
             ps[k] == NewParticle(draw(2 * BurstPerCard + k), draw(2 * BurstPerCard + k).colour);
    ps
  }

  /** `update_revealed_cards`: once two cards are pending and both have been
      shown long enough, equal colours match both cards (one more pair, 250
      points, a confetti burst, and the win when every pair is found) and
      different colours turn both back; either way the pending list empties.
      Otherwise nothing changes. */
  function UpdateRevealed(g: Game, now: int, draw: nat -> ParticleDraw): (r: Game)
    requires forall k :: 0 <= k < |g.pending| ==> g.pending[k] < |g.cards|
    ensures !(|g.pending| == 2 && Due(g, now)) ==> r == g
    ensures |g.pending| == 2 && Due(g, now) ==>
              && r.pending == []
              && r.moves == g.moves && r.totalPairs == g.totalPairs && r.background == g.background
              && |r.cards| == |g.cards|
              && var i, j := g.pending[0], g.pending[1];
              && (forall k :: 0 <= k < |g.cards| && k != i && k != j ==> r.cards[k] == g.cards[k])
              && (g.cards[i].colour == g.cards[j].colour ==>
                    && r.cards[i] == g.cards[i].(matched := true)
                    && r.cards[j] == g.cards[j].(matched := true)
                    && r.matchedPairs == g.matchedPairs + 1
                    && r.score == g.score + MatchBonus
                    && (r.won <==> g.won || r.matchedPairs == g.totalPairs)
                    && |r.particles| == |g.particles| + 2 * BurstPerCard
                                        + (if r.matchedPairs == g.totalPairs then VictoryBurst else 0)
                    && r.particles == g.particles + MatchBurst(g.cards[i].colour, g.cards[j].colour, draw)
                                      + (if r.matchedPairs == g.totalPairs then VictoryExplosion(draw) else []))
              && (g.cards[i].colour != g.cards[j].colour ==>
                    && r.cards[i] == g.cards[i].(revealed := false)
                    && r.cards[j] == g.cards[j].(revealed := false)
                    && r.matchedPairs == g.matchedPairs && r.score == g.score && r.won == g.won
                    && r.particles == g.particles)
  {
    if |g.pending| == 2 && Due(g, now) then
      var i, j := g.pending[0], g.pending[1];
      var c1, c2 := g.cards[i], g.cards[j];
      if c1.colour == c2.colour then
        var pairs := g.matchedPairs + 1;
        var victory := pairs == g.totalPairs;
        g.(cards := SetMatched(SetMatched(g.cards, i), j),
           pending := [],
           matchedPairs := pairs,
           score := g.score + MatchBonus,
           won := if victory then true else g.won,
           particles := g.particles + MatchBurst(c1.colour, c2.colour, draw)
                        + (if victory then VictoryExplosion(draw) else []))
      else
        g.(cards := Hide(Hide(g.cards, i), j), pending := [])
    else
      g
  }

  // --------------------------------------------------------------- restart

  /** `restart_game`: a fresh board, zero counters, no pending cards, no
      confetti. The background sparkles and the pair total are kept. */
  function RestartGame(g: Game, draws: seq<nat>, screen: Screen): (r: Game)
    requires ValidDraws(draws, Rows * Cols)
    ensures r.score == 0 && r.moves == 0 && r.matchedPairs == 0 && !r.won
    ensures r.pending == [] && r.particles == [] && r.background == g.background
    ensures r.totalPairs == g.totalPairs
    ensures forall i :: 0 <= i < |r.cards| ==> Fresh(r.cards[i])
    ensures g.totalPairs == TotalPairs ==> Valid(r)
    ensures r.cards == Setup(draws, screen)
  {
    var r := g.(cards := Setup(draws, screen), pending := [], matchedPairs := 0, won := false,
                particles := [], score := 0, moves := 0);
    FreshGameValid(r);
    r
  }

  /** A game of fresh cards with zero counters and nothing pending is valid
      once it has the standard pair total. */
  lemma FreshGameValid(g: Game)
    requires |g.cards| == 2 * TotalPairs
    requires forall i :: 0 <= i < |g.cards| ==> g.cards[i].index == i && Fresh(g.cards[i])
    requires g.pending == [] && g.matchedPairs == 0 && g.score == 0 && !g.won
    ensures g.totalPairs == TotalPairs ==> Valid(g)
  {
    AllFreshNoneMatched(g.cards);
  }

  // ----------------------------------------------------------------- frame

  /** The background and confetti part of `update_background_effects`. */
  function UpdateBackgroundEffects(g: Game, sky: nat -> SparkleDraw): (r: Game)
    ensures r == g.(background := r.background, particles := r.particles)
    ensures |r.background| <= Max(|g.background|, BackgroundTarget + TopUpBatch - 1)
    ensures |r.particles| <= |g.particles|
    ensures forall e <- r.particles :: Alive(e)
    ensures r.background == TopUp(g.background, sky) && r.particles == Tick(g.particles)
  {
    g.(background := TopUp(g.background, sky), particles := Tick(g.particles))
  }

  /** `Card.update` for every card; `settled(i)` and `spawn(i)` are card i's
      entrance convergence and sparkle draw for this tick. */
  function UpdateCards(cards: seq<Card>, now: int, settled: nat -> bool,
                       spawn: nat -> Option<SparkleDraw>): (r: seq<Card>)
    ensures |r| == |cards|
    ensures forall i :: 0 <= i < |cards| ==>
              && r[i].revealed == cards[i].revealed && r[i].matched == cards[i].matched
              && r[i].index == cards[i].index && CharmOf(r[i]) == CharmOf(cards[i])
              && (cards[i].entered ==> r[i].entered)
              && (0.0 <= cards[i].flip <= 1.0 ==> 0.0 <= r[i].flip <= 1.0)
    ensures forall i :: 0 <= i < |cards| ==> r[i] == Update(cards[i], now, settled(i), spawn(i))
  {
    var r := seq(|cards|, i requires 0 <= i < |cards| => Update(cards[i], now, settled(i), spawn(i)));
    assert forall i :: 0 <= i < |cards| ==> r[i] == Update(cards[i], now, settled(i), spawn(i));
    r
  }

  /** What one frame of the main loop does after the input events:
      resolve the pending pair, update the effect pools, update each card. */
  function Frame(g: Game, now: int, burst: nat -> ParticleDraw, sky: nat -> SparkleDraw,
                 settled: nat -> bool, spawn: nat -> Option<SparkleDraw>): (r: Game)
    requires forall k :: 0 <= k < |g.pending| ==> g.pending[k] < |g.cards|
  {
    var resolved := UpdateRevealed(g, now, burst);
    var effects := UpdateBackgroundEffects(resolved, sky);
    effects.(cards := UpdateCards(effects.cards, now, settled, spawn))
  }

  // ---------------------------------------------------------------- events

  /** What reaches the core from the main loop. */
  datatype Event =
    | MouseDown(button: int, under: set<nat>, now: int)
    | KeyR(draws: seq<nat>, screen: Screen)
    | Tock(now: int, burst: nat -> ParticleDraw, sky: nat -> SparkleDraw,
           settled: nat -> bool, spawn: nat -> Option<SparkleDraw>)

  predicate WellFormed(e: Event) {
    e.KeyR? ==> ValidDraws(e.draws, Rows * Cols)
  }

  /** The main loop's dispatch: a left click reaches the board only while the
      game is not won, and R restarts only once it is won. */
  function Step(g: Game, e: Event): (r: Game)
    requires Valid(g) && WellFormed(e)
    ensures Valid(r)
    ensures e.MouseDown? && (g.won || e.button != 1) ==> r == g
    ensures e.KeyR? && !g.won ==> r == g
    ensures e.MouseDown? && e.button == 1 && !g.won ==> r == HandleCardClick(g, e.under, e.now)
    ensures e.KeyR? && g.won ==> r == RestartGame(g, e.draws, e.screen)
    ensures e.Tock? ==> r == Frame(g, e.now, e.burst, e.sky, e.settled, e.spawn)
  {
    match e
    case MouseDown(button, under, now) =>
      if button == 1 && !g.won then
        ClickPreservesValid(g, under, now);
        HandleCardClick(g, under, now)
      else g
    case KeyR(draws, screen) =>
      if g.won then RestartGame(g, draws, screen) else g
    case Tock(now, burst, sky, settled, spawn) =>
      FramePreservesValid(g, now, burst, sky, settled, spawn);
      Frame(g, now, burst, sky, settled, spawn)
  }

  function Run(g: Game, events: seq<Event>): (r: Game)
    requires Valid(g) && forall e <- events :: WellFormed(e)
    ensures Valid(r)
    decreases |events|
  {
    if |events| == 0 then g else Run(Step(g, events[0]), events[1..])
  }

  // ------------------------------------------------------------ invariants

  lemma {:induction false} MatchedCountUpdate(cards: seq<Card>, i: nat, c: Card)
    requires i < |cards|
    ensures MatchedCount(cards[i := c])
            == MatchedCount(cards) - (if cards[i].matched then 1 else 0) + (if c.matched then 1 else 0)
  {
    if i > 0 {
      assert cards[i := c][1..] == cards[1..][i - 1 := c];
      MatchedCountUpdate(cards[1..], i - 1, c);
    }
  }

  lemma {:induction false} MatchedCountAgree(a: seq<Card>, b: seq<Card>)
    requires |a| == |b|
    requires forall i :: 0 <= i < |a| ==> a[i].matched == b[i].matched
    ensures MatchedCount(a) == MatchedCount(b)
  {
    if |a| > 0 {
      MatchedCountAgree(a[1..], b[1..]);
    }
  }

  lemma {:induction false} AllFreshNoneMatched(cards: seq<Card>)
    requires forall i :: 0 <= i < |cards| ==> !cards[i].matched
    ensures MatchedCount(cards) == 0
  {
    if |cards| > 0 {
      AllFreshNoneMatched(cards[1..]);
    }
  }

  /** A click keeps the game invariant. */
  lemma ClickPreservesValid(g: Game, under: set<nat>, now: int)
    requires Valid(g)
    ensures Valid(HandleCardClick(g, under, now))
  {
    var r := HandleCardClick(g, under, now);
    if r.pending != g.pending {
      var i := r.pending[|g.pending|];
      assert !Pending(g.cards[i]) && i !in g.pending;
      MatchedCountUpdate(g.cards, i, r.cards[i]);
      forall k | 0 <= k < |r.cards|
        ensures Pending(r.cards[k]) <==> k in r.pending
      {
        if k != i {
          assert r.cards[k] == g.cards[k];
        }
      }
    }
  }

  /** Resolving a pair keeps the game invariant. */
  lemma ResolvePreservesValid(g: Game, now: int, draw: nat -> ParticleDraw)
    requires Valid(g)
    ensures Valid(UpdateRevealed(g, now, draw))
  {
    if |g.pending| == 2 && Due(g, now) {
      var i, j := g.pending[0], g.pending[1];
      assert i in g.pending && j in g.pending;
      if g.cards[i].colour == g.cards[j].colour {
        MatchKeepsValid(g, now, draw);
      } else {
        MismatchKeepsValid(g, now, draw);
      }
    }
  }

  /** A due pair of equal colours: both cards become matched and the pair
      counter, the score and the win flag move together. */
  lemma MatchKeepsValid(g: Game, now: int, draw: nat -> ParticleDraw)
    requires Valid(g) && |g.pending| == 2 && Due(g, now)
    requires g.cards[g.pending[0]].colour == g.cards[g.pending[1]].colour
    ensures Valid(UpdateRevealed(g, now, draw))
  {
    var r := UpdateRevealed(g, now, draw);
    var i, j := g.pending[0], g.pending[1];
    assert i in g.pending && j in g.pending;
    assert Pending(g.cards[i]) && Pending(g.cards[j]);
    var once := SetMatched(g.cards, i);
    MatchedCountUpdate(g.cards, i, once[i]);
    MatchedCountUpdate(once, j, once[j].(matched := true));
    assert r.cards == SetMatched(once, j);
    forall k | 0 <= k < |r.cards|
      ensures r.cards[k].index == k && 0.0 <= r.cards[k].flip <= 1.0
      ensures r.cards[k].matched ==> r.cards[k].revealed
      ensures !Pending(r.cards[k])
    {
      if k != i && k != j {
        assert k !in g.pending;
      }
    }
  }

  /** A due pair of different colours: both cards are turned back and no
      counter moves. */
  lemma MismatchKeepsValid(g: Game, now: int, draw: nat -> ParticleDraw)
    requires Valid(g) && |g.pending| == 2 && Due(g, now)
    requires g.cards[g.pending[0]].colour != g.cards[g.pending[1]].colour
    ensures Valid(UpdateRevealed(g, now, draw))
  {
    var r := UpdateRevealed(g, now, draw);
    var i, j := g.pending[0], g.pending[1];
    assert i in g.pending && j in g.pending;
    assert Pending(g.cards[i]) && Pending(g.cards[j]);
    var once := Hide(g.cards, i);
    MatchedCountUpdate(g.cards, i, once[i]);
    MatchedCountUpdate(once, j, once[j].(revealed := false));
    assert r.cards == Hide(once, j);
    forall k | 0 <= k < |r.cards|
      ensures r.cards[k].index == k && 0.0 <= r.cards[k].flip <= 1.0
      ensures r.cards[k].matched ==> r.cards[k].revealed
      ensures !Pending(r.cards[k])
    {
      if k != i && k != j {
        assert k !in g.pending;
      }
    }
  }

  /** A whole frame keeps the game invariant. */
  lemma FramePreservesValid(g: Game, now: int, burst: nat -> ParticleDraw, sky: nat -> SparkleDraw,
                            settled: nat -> bool, spawn: nat -> Option<SparkleDraw>)
    requires Valid(g)
    ensures Valid(Frame(g, now, burst, sky, settled, spawn))
  {
    ResolvePreservesValid(g, now, burst);
    var effects := UpdateBackgroundEffects(UpdateRevealed(g, now, burst), sky);
    var r := Frame(g, now, burst, sky, settled, spawn);
    MatchedCountAgree(effects.cards, r.cards);
  }

  // -------------------------------------------------------------- progress

  /** What no click or frame undoes: the board keeps its cards and colours,
      a matched card stays matched, the counters never decrease and a won
      game stays won. */
  predicate Progress(g: Game, r: Game) {
    && |r.cards| == |g.cards|
    && CharmsOf(r.cards) == CharmsOf(g.cards)
    && (forall i :: 0 <= i < |g.cards| ==> g.cards[i].matched ==> r.cards[i].matched)
    && g.score <= r.score && g.moves <= r.moves && g.matchedPairs <= r.matchedPairs
    && (g.won ==> r.won)
  }

  lemma ProgressTransitive(a: Game, b: Game, c: Game)
    requires Progress(a, b) && Progress(b, c)
    ensures Progress(a, c)
  {
  }

  lemma ClickProgress(g: Game, under: set<nat>, now: int)
    requires Valid(g)
    ensures Progress(g, HandleCardClick(g, under, now))
  {
    var r := HandleCardClick(g, under, now);
    assert CharmsOf(r.cards) == CharmsOf(g.cards);
  }

  /** Resolving a pair only adds matches and points. */
  lemma ResolveProgress(g: Game, now: int, burst: nat -> ParticleDraw)
    requires Valid(g)
    ensures Progress(g, UpdateRevealed(g, now, burst))
  {
    var r := UpdateRevealed(g, now, burst);
    assert forall i :: 0 <= i < |g.cards| ==> CharmOf(r.cards[i]) == CharmOf(g.cards[i]);
    assert CharmsOf(r.cards) == CharmsOf(g.cards);
  }

  lemma FrameProgress(g: Game, now: int, burst: nat -> ParticleDraw, sky: nat -> SparkleDraw,
                      settled: nat -> bool, spawn: nat -> Option<SparkleDraw>)
    requires Valid(g)
    ensures Progress(g, Frame(g, now, burst, sky, settled, spawn))
  {
    var resolved := UpdateRevealed(g, now, burst);
    ResolveProgress(g, now, burst);
    var effects := UpdateBackgroundEffects(resolved, sky);
    var r := Frame(g, now, burst, sky, settled, spawn);
    assert CharmsOf(r.cards) == CharmsOf(effects.cards);
    ProgressTransitive(g, resolved, r);
  }

  /** Every event other than the restart key makes progress. */
  lemma StepProgress(g: Game, e: Event)
    requires Valid(g) && WellFormed(e) && !e.KeyR?
    ensures Progress(g, Step(g, e))
  {
    match e
    case MouseDown(button, under, now) =>
      if button == 1 && !g.won {
        ClickProgress(g, under, now);
      }
    case Tock(now, burst, sky, settled, spawn) =>
      FrameProgress(g, now, burst, sky, settled, spawn);
  }

  /** Between restarts, any run of clicks and frames makes progress: matched
      cards, score, moves, pairs and the win are never taken back. */
  lemma {:induction false} RunProgress(g: Game, events: seq<Event>)
    requires Valid(g) && forall e <- events :: WellFormed(e) && !e.KeyR?
    ensures Progress(g, Run(g, events))
    decreases |events|
  {
    if |events| > 0 {
      var next := Step(g, events[0]);
      StepProgress(g, events[0]);
      assert forall e <- events[1..] :: e in events;
      RunProgress(next, events[1..]);
      ProgressTransitive(g, next, Run(next, events[1..]));
    }
  }

  lemma {:induction false} AllMatchedCount(cards: seq<Card>)
    ensures MatchedCount(cards) == |cards| <==> forall i :: 0 <= i < |cards| ==> cards[i].matched
  {
    if |cards| > 0 {
      AllMatchedCount(cards[1..]);
      if MatchedCount(cards) == |cards| {
        forall i | 0 <= i < |cards|
          ensures cards[i].matched
        {
          if i > 0 {
            assert cards[i] == cards[1..][i - 1];
          }
        }
      }
    }
  }

  /** In a reachable game, the win flag is set exactly when every card on
      the board is matched. */
  lemma WonIffAllMatched(g: Game)
    requires Valid(g)
    ensures g.won <==> forall i :: 0 <= i < |g.cards| ==> g.cards[i].matched
  {
    AllMatchedCount(g.cards);
  }

  /** Every entry of the pending list names a card that is not matched. */
  lemma PendingUnmatched(g: Game)
    requires Valid(g)
    ensures forall j :: 0 <= j < |g.pending| ==> !g.cards[g.pending[j]].matched
    ensures |g.pending| > 0 ==> !g.cards[g.pending[0]].matched
  {
    forall j | 0 <= j < |g.pending|
      ensures !g.cards[g.pending[j]].matched
    {
      assert g.pending[j] in g.pending;
    }
  }

  /** Once the game is won, nothing is pending and only the restart key
      changes the game state that counts: clicks are ignored and frames only
      animate. */
  lemma WonIsFrozen(g: Game, e: Event)
    requires Valid(g) && WellFormed(e) && g.won && !e.KeyR?
    ensures g.pending == []
    ensures var r := Step(g, e);
            && r.won && r.pending == [] && r.score == g.score && r.moves == g.moves
            && r.matchedPairs == g.matchedPairs
            && forall i :: 0 <= i < |g.cards| ==> r.cards[i].matched && r.cards[i].revealed
  {
    WonIffAllMatched(g);
    PendingUnmatched(g);
    var r := Step(g, e);
    StepProgress(g, e);
  }

  // -------------------------------------------------------------- scenario

  /** A two-by-two board with colours A, B, A, B, every card entered. */
  function DemoBoard(a: Colour, b: Colour): Game {
    Game([DemoCard(0, a), DemoCard(1, b), DemoCard(2, a), DemoCard(3, b)],
         [], 0, 2, false, 0, 0, [], [])
  }

  function DemoCard(i: nat, c: Colour): Card {
    NewCard(0, 0, Charm(c, ""), i).(entered := true)
  }

  /** Turns over the cards `i` and then `j`, at `t` and `t + dt`. */
  function ClickPair(g: Game, i: nat, j: nat, t: int, dt: int): Game {
    HandleCardClick(HandleCardClick(g, {i}, t), {j}, t + dt)
  }

  /** A two-by-two game between turns: the board is `cards`, nothing is
      pending, and the counters are `moves` and `pairs`. */
  predicate Quiet(g: Game, cards: seq<Card>, moves: nat, pairs: nat) {
    && g.cards == cards && g.pending == [] && g.totalPairs == 2
    && g.moves == moves && g.matchedPairs == pairs && g.score == MatchBonus * pairs
    && !g.won
  }

  /** The board after the mismatch of cards 0 and 1. */
  function AfterMismatch(a: Colour, b: Colour): seq<Card> {
    [DemoCard(0, a), DemoCard(1, b).(revealTime := 10), DemoCard(2, a), DemoCard(3, b)]
  }

  /** The board after the match of cards 0 and 2. */
  function AfterMatch(a: Colour, b: Colour): seq<Card> {
    [DemoCard(0, a).(revealed := true, matched := true, revealTime := 2000),
     DemoCard(1, b).(revealTime := 10),
     DemoCard(2, a).(revealed := true, matched := true, revealTime := 2005),
     DemoCard(3, b)]
  }

  /** The two-by-two board starts quiet. */
  lemma DemoStart(a: Colour, b: Colour)
    ensures Quiet(DemoBoard(a, b), DemoBoard(a, b).cards, 0, 0)
    ensures DemoBoard(a, b).cards == [DemoCard(0, a), DemoCard(1, b), DemoCard(2, a), DemoCard(3, b)]
  {
  }

  /** Clicking cards 0 (A) and 1 (B) counts one move; the pair is not
      resolved while card 1 has been shown for less than 1800 ms, and then
      turns back because the colours differ. */
  lemma DemoMismatch(g: Game, a: Colour, b: Colour, burst: nat -> ParticleDraw)
    requires a != b
    requires Quiet(g, [DemoCard(0, a), DemoCard(1, b), DemoCard(2, a), DemoCard(3, b)], 0, 0)
    ensures var h := ClickPair(g, 0, 1, 0, 10);
            && h.pending == [0, 1] && h.moves == 1
            && h.cards[0].revealed && h.cards[1].revealed
            && UpdateRevealed(h, 1809, burst) == h
            && Quiet(UpdateRevealed(h, 1810, burst), AfterMismatch(a, b), 1, 0)
  {
    assert Hit(g.cards, {0}, 0);
    var g1 := HandleCardClick(g, {0}, 0);
    assert g1.pending == [0];
    assert !Hit(g1.cards, {1}, 0) && Hit(g1.cards, {1}, 1);
    var h := HandleCardClick(g1, {1}, 10);
    assert h.pending == [0, 1];
    assert h.cards == [DemoCard(0, a).(revealed := true), DemoCard(1, b).(revealed := true, revealTime := 10),
                       DemoCard(2, a), DemoCard(3, b)];
    assert !Due(h, 1809) && Due(h, 1810);
  }

  /** Cards 0 and 2 share colour A: after the dwell both are matched, one
      pair is counted with 250 points, and the game is not yet won. */
  lemma DemoMatch(g: Game, a: Colour, b: Colour, burst: nat -> ParticleDraw)
    requires a != b
    requires Quiet(g, AfterMismatch(a, b), 1, 0)
    ensures var h := ClickPair(g, 0, 2, 2000, 5);
            && h.pending == [0, 2] && h.moves == 2
            && Quiet(UpdateRevealed(h, 3805, burst), AfterMatch(a, b), 2, 1)
  {
    assert Hit(g.cards, {0}, 0);
    var g1 := HandleCardClick(g, {0}, 2000);
    assert g1.pending == [0];
    assert !Hit(g1.cards, {2}, 0) && !Hit(g1.cards, {2}, 1) && Hit(g1.cards, {2}, 2);
    var h := HandleCardClick(g1, {2}, 2005);
    assert h.pending == [0, 2];
    assert h.cards == [DemoCard(0, a).(revealed := true, revealTime := 2000),
                       DemoCard(1, b).(revealTime := 10),
                       DemoCard(2, a).(revealed := true, revealTime := 2005),
                       DemoCard(3, b)];
    assert Due(h, 3805);
  }

  /** The last pair, cards 1 and 3, wins: two pairs, 500 points, three moves,
      every card matched. */
  lemma DemoWin(g: Game, a: Colour, b: Colour, burst: nat -> ParticleDraw)
    requires a != b
    requires Quiet(g, AfterMatch(a, b), 2, 1)
    ensures var h := ClickPair(g, 1, 3, 4000, 1);
            && h.pending == [1, 3]
            && var r := UpdateRevealed(h, 5801, burst);
            && r.matchedPairs == 2 && r.score == 500 && r.moves == 3 && r.won && r.pending == []
            && forall k :: 0 <= k < 4 ==> r.cards[k].matched
  {
    assert !Hit(g.cards, {1}, 0) && Hit(g.cards, {1}, 1);
    var g1 := HandleCardClick(g, {1}, 4000);
    assert g1.pending == [1];
    assert !Hit(g1.cards, {3}, 0) && !Hit(g1.cards, {3}, 1) && !Hit(g1.cards, {3}, 2);
    assert Hit(g1.cards, {3}, 3);
    var h := HandleCardClick(g1, {3}, 4001);
    assert h.pending == [1, 3];
    assert h.cards == [AfterMatch(a, b)[0], DemoCard(1, b).(revealed := true, revealTime := 4000),
                       AfterMatch(a, b)[2], DemoCard(3, b).(revealed := true, revealTime := 4001)];
    assert Due(h, 5801);
  }
}
